=== FILE: README.md ===
# Vision-guided steering loop, modelled in Dafny

This project models the core of a small robot program, `main.py`. The program
reads object detections from a camera-fed vision service and steers a wheeled
base so that it keeps the object centred and drives toward it. It has two parts.

- **`leftOrRight`** is the decision function. It takes a list of bounding boxes,
  the frame midpoint and a remembered bearing (`"CW"`, `"CCW"` or `None`). It picks
  the first box of largest positive area. It computes `x_min + x_max / 2`, which
  is not the box centre. It classifies that value against the band
  `[midpoint - midpoint/6, midpoint + midpoint/6]` and returns `(answer, bearing)`,
  where the answer is -1 (nothing seen), 0 (left), 1 (centred) or 2 (right).
- **`main`** first runs a search loop: it spins, samples and decides with the
  bearing seeded to `"CW"`, until a bearing is known. It then runs 400 tracking
  cycles. Each cycle turns the decision into one or two motion commands,
  `spin(angle, vel)` and `move_straight(distance, vel)`, and carries the bearing
  on to the next cycle.

Modules:

- `Results` (results.dfy): `Option` and `Result`.
- `Geometry` (geometry.dfy): `Box`, `Area`, `CenterX`, and the largest-box scan.
- `Steering` (steering.dfy): `Bearing`, `Answer`, `Decision`, `Fault` and `LeftOrRight`.
- `Control` (control.dfy): the constants, Python floor division, `Command`, the
  per-decision commands `Act`, the search loop, the tracking fold and the whole `Run`.
- `Scenarios` (scenarios.dfy): concrete situations computed on the model.

Modelling choices:

- Box coordinates are integers. The midpoint, `CenterX` and the band edges are
  exact `real`s.
- The detections are a finite stream `seq<seq<Box>>`, one entry per call to the
  vision service. The frame width is a parameter of `Run`.
- Motion is the trace of `Command`s sent to the base.
- If every box of a non-empty list has area <= 0, no box replaces the
  placeholder dict. Line 59 then reads `.x_min` on a dict, which raises. The model
  returns `Failure(PlaceholderHasNoCoordinates)` in that case, and a run that
  meets it stops with `Crashed`.
- A run stops in one of three ways: it completes, it crashes, or the finite
  stream runs out (`Starved`). The real service always answers, so `Starved` only
  marks a stream shorter than the program's requests. When the search loop runs
  dry, its `spin(3, 250)` is already in the trace, because line 92 sends the spin
  before line 93 asks for detections. `RunCompletes` shows that
  1 + 400 samples are always enough.

Behaviour the model keeps from the code, as written:

- The search loop spins by `+3` (`spinNum // 3`). Its comment calls this
  clockwise, but the tracking branch uses the same `+3` for a `"CCW"` bearing.
- Floor division makes the two turns different in size. `10 // 3` is 3 and
  `-10 // 3` (read as `(-10) // 3`) is -4.
- The search loop always ends after one pass, because it seeds `leftOrRight` with
  `"CW"`.
- Of two boxes of equal area the scan keeps the first one. For example,
  `(0,20,0,20)` and `(100,140,0,10)` both have area 400. The first is kept, and
  its `CenterX` of 10 gives "left" (`Scenarios.TieKeepsFirstBox`).

## Model

| member | source | states |
|---|---|---|
| Geometry.Area | main.py:54 | The area expression `(x_max - x_min) * (y_max - y_min)`. It has no contract beyond the expression. `Geometry.Largest` and `Steering.DegenerateBoxIgnored` state what it is used for: only boxes of positive area can be selected. |
| Geometry.CenterX | main.py:59 | The literal `x_min + x_max / 2`, as exact real division. It has no contract beyond the expression. `Geometry.CenterXOffset` states its meaning: it is not the box centre, and overshoots it by `x_min / 2`. |
| Geometry.ScanLargest | main.py:53-57 | From any state of the loop that respects its invariant, the scan ends on None exactly when no box has positive area. Otherwise it ends on the first box of maximal positive area. |
| Geometry.Largest | main.py:41-57 | Starting from `largest_area = 0` and the placeholder, the selection is None exactly when every area is <= 0. Otherwise it is a box of positive area that is at least as large as every box and strictly larger than every earlier box, so a later box of equal area never replaces it. |
| Geometry.LargestIsFirstLargest | main.py:53-57 | Any index that meets the selection rule is the one the scan returns, so the rule determines the selected box completely. |
| Geometry.CenterXOffset | main.py:59 | `x_min + x_max / 2` exceeds the true centre by `x_min / 2`. The two agree exactly when `x_min == 0`. |
| Geometry.FirstLargestUnique | main.py:53-57 | At most one index satisfies the selection rule, so the selected box is fully determined. |
| Steering.Lower | main.py:60 | The left band edge `midpoint - midpoint / 6`. It has no contract beyond the expression. `Steering.ClassifiesFirstLargest` and `Scenarios.DeadZoneEdges` state its meaning: strictly below it is "left". |
| Steering.Upper | main.py:63 | The right band edge `midpoint + midpoint / 6`. It has no contract beyond the expression. `Steering.ClassifiesFirstLargest` and `Scenarios.DeadZoneEdges` state its meaning: strictly above it is "right". |
| Steering.LeftOrRight | main.py:28-66 | An empty list gives `(-1, last_position)`, unchanged even when it is None. The call fails exactly when the list is non-empty and no box has positive area. The answer is "lost" exactly when the list is empty. The new bearing is CCW after "left", CW after "right", and otherwise the old one. A known bearing never becomes unknown. |
| Steering.AnswerIgnoresBearing | main.py:44-66 | Whether `leftOrRight` raises, and the answer it gives, do not depend on the bearing passed in. The bearing is only carried through. |
| Steering.ClassifiesFirstLargest | main.py:59-66 | For a non-negative midpoint, the first largest box alone decides the answer. Left of `midpoint - midpoint/6` is "left". Right of `midpoint + midpoint/6` is "right". The closed band between them is "centred". |
| Steering.DegenerateBoxIgnored | main.py:53-57 | Appending a box of area <= 0 to a list that has a positive-area box does not change the decision. |
| Control.FloorDiv | main.py:107-110 | Python's `//` rounds toward minus infinity: `q*b <= a < q*b + b` for `b > 0`, and the mirror image for `b < 0`. |
| Control.SpinAsymmetry | main.py:74-110 | The counter-clockwise turn `spinNum // 3` is 3 and the clockwise turn `-spinNum // 3` is -4, so the two are not the same size. |
| Control.Turn | main.py:113-123 | A turn followed by an advance holds exactly one forward move. |
| Control.Act | main.py:103-123 | Each cycle issues one or two commands, all at speed 250, with turns of 3 or -4 and advances of 50. A lost object gives exactly one command, a turn. The last command is a forward move exactly when the object was seen, and there is exactly one forward move in that case and none otherwise. A turn comes first exactly when the answer is not "centred". The turn is positive (counter-clockwise) exactly for "left", or for "lost" with a CCW bearing. A CW or unknown bearing turns by -4. |
| Control.SearchLoop | main.py:89-95 | From a known bearing the loop does nothing. Otherwise every pass issues one `spin(3, 250)` and then takes one sample, so a stream that runs dry ends on a spin with no sample after it. The loop completes only with a known bearing. From no bearing it completes on its first sample, with CCW if that sample shows the object left and CW otherwise, because `leftOrRight` is seeded with CW. It crashes only on a sample whose boxes all have area <= 0. |
| Control.SearchRunsOnce | main.py:89-95 | From no bearing and with at least one sample, the loop takes exactly one sample, issues exactly `[spin(3, 250)]` and never runs dry. It crashes exactly when that sample is non-empty and all of its boxes have area <= 0. |
| Control.Track | main.py:98-123 | The tracking cycles consume samples in order and never ask for more than they are given. When they complete they have used every sample. A known bearing stays known to the end. |
| Control.TrackCrash | main.py:98-101 | Tracking crashes exactly when some sample is non-empty with all areas <= 0. The crash happens on the last sample taken, which is the first such sample in the stream. No earlier sample is of that kind. |
| Control.TrackBearing | main.py:98-101 | When tracking completes, the bearing carried out of the last cycle is the side of the last sample that showed the object left (CCW) or right (CW). If no sample did, it is the bearing tracking started from. `LastSide` is that reference, defined from the end of the stream. |
| Control.TrackCommands | main.py:98-123 | A phase of n cycles that were decided without a crash issues between n and 2n commands in total. Every command is one the program can issue. |
| Control.TrackSplit | main.py:98-101 | Tracking `a + b` equals tracking `a` and then tracking `b` from the bearing `a` ended with. The bearing is the only state carried between cycles. |
| Control.TrackSnoc | main.py:98-123 | A completed phase that ends on one more sample completes without it. That sample updates the bearing in the `Remember` way: CCW after left, CW after right, unchanged otherwise. Its commands are those for its side, acted on with the updated bearing, and they follow the commands of the phase before it. |
| Control.TrackLast | main.py:98-123 | A single completed cycle ends with its sample's side remembered. It sends the commands for that side, acted on with the updated bearing. |
| Control.TrackTrace | main.py:98-123 | A completed tracking phase sends exactly the reference trace `Expected`: for each sample in turn, the commands for the side it shows, acted on with the bearing remembered once it is seen. In particular, a lost object turns toward the side of the last left or right sighting (+3 after left, -4 after right or none). `Expected` is defined from the end of the stream, using `LastSide` for the bearing. |
| Control.ExpectedSnoc | main.py:98-123 | The reference trace of a stream with one more sample at the end is the old trace followed by that sample's commands, with the bearing `LastSide` gives for the samples before it. |
| Control.LastSideCons | main.py:89-101 | Putting one sample in front of a stream only changes the bearing that the reference memory starts from for the rest. |
| Control.TrackPrefixCompletes | main.py:98-101 | If tracking a stream completes, tracking any prefix of it completes as well. |
| Control.MovesPerSighting | main.py:103-123 | A completed tracking phase moves forward exactly once for each sample that held a detection. |
| Control.Midpoint | main.py:95-101 | The midpoint `frame.size[0] / 2`, as exact real division. It has no contract beyond the expression. `Scenarios.DeadZoneEdges` uses it at width 600 (midpoint 300). |
| Control.Run | main.py:73-123 | The whole program never takes more samples than exist. It completes only with a known bearing, and only when it was given at least 1 + 400 samples, of which it then took exactly 401: one for the search and one per cycle. |
| Control.RunCompletes | main.py:89-123 | Given 1 + 400 samples, the program never runs dry. When it completes, it has taken exactly 401 samples and issued the search spin first. It has issued between 401 and 801 commands, ends with a known bearing, and moves forward once per tracked sample that held a detection. It completes exactly when none of the 401 samples it takes is non-empty with every area <= 0. On completion its bearing is the side of the last of those 401 samples that showed the object left or right, and CW, the search's seed, if none did. Its commands are then exactly `spin(3, 250)` followed by the reference trace `Expected` of the 400 tracked samples. That trace starts from the search's bearing: CCW if the first sample showed the object left, CW otherwise. |
| Control.RunTrace | main.py:89-123 | Given 1 + 400 samples, a completed run sends the search spin and then exactly the reference trace of its 400 tracked samples, starting from the bearing the search found. |
| Control.RunHalt | main.py:89-123 | Given 1 + 400 samples, the program completes exactly when none of the 401 samples it takes is non-empty with every area <= 0. |
| Control.RunBearing | main.py:89-123 | Given 1 + 400 samples, a completed run ends with the side of the last of its 401 samples that showed the object left or right, or CW if none did. |
| Control.RunIssuable | main.py:74-123 | However the run stops, every command sent is `spin(3, 250)`, `spin(-4, 250)` or `move_straight(50, 250)`. |
| Scenarios.DeadZoneEdges | main.py:60-66 | With midpoint 300 the band is [250, 350]. A CenterX of 249 is "left", 351 is "right", and 250, 300 and 350 are "centred" with the bearing kept. |
| Scenarios.LostKeepsBearing | main.py:44-51 | An empty sample returns -1 with the given bearing, whether CW or None. |
| Scenarios.BearingSurvivesCentered | main.py:98-123 | A left sighting and then a centred one leave CCW remembered. They issue a turn of 3, an advance, and another advance. |
| Scenarios.LostAfterLeftSpinsCcw | main.py:101-115 | A left sighting and then an empty sample send `spin(3)` and `move_straight(50)`, then `spin(3)`: the lost object is searched for counter-clockwise, toward where it was last seen. |
| Scenarios.TieKeepsFirstBox | main.py:53-62 | Of two boxes of equal area the first is kept. The result is "left" with CCW, which issues `spin(3)` and `move_straight(50)`. |
| Scenarios.CenteredBoxReadsRight | main.py:59-64 | A box centred on the midpoint (280..320 at midpoint 300) is classified "right" because of the `x_min + x_max / 2` formula. |
| Scenarios.DegenerateDetectionsCrash | main.py:41-95 | Detections with only zero or negative areas raise. In the search loop this happens after the first spin. |

## Left out

- `connect`, the credentials and the robot address (main.py:10-25): these are network session plumbing.
- `Base.from_robot`, `Camera.from_robot`, `VisionClient.from_robot`, `get_image` and `get_detections_from_camera` (main.py:80-87, 93, 99): these are external services. Detections are an input stream, and the first frame's width is the `frameWidth` parameter of `Control.Run`.
- Errors raised by the vision service or by `spin`/`move_straight`: the base and the service are not part of this model, so their failures are not either.
- `asyncio`, `await` and `robot.close()` (main.py:125-131): the calls are strictly sequential, so they are modelled as ordinary steps.
- `print` messages: these are logging only.
- IEEE-754 floating point: `x_max / 2`, `midpoint / 6` and `frame.size[0] / 2` are exact `real`s here. A value within one rounding step of a band edge may be classified differently by the program.
- The `if/elif` chain of main.py:113-123 has no branch for an answer outside -1..2. `leftOrRight` never returns one, and the `Answer` datatype has exactly four values, so that silent fall-through is not represented.
- Control.Run: its own contract states the sample bound, a known bearing on completion, and that completing needs at least 1 + 400 samples. For such a stream, `Control.RunCompletes` states when it completes, the bearing it ends with, and the commands it issues. `Control.RunIssuable` covers the commands of every run.

=== FILE: control.dfy ===
/**
  The control flow of `main` (main.py, lines 73-123): an initial search loop,
  then a fixed number of detect / decide / act cycles, with the bearing threaded
  from one cycle to the next. Detections are a finite stream of samples, one per
  call to the vision service; motion is the trace of commands sent to the base.
 */
module Control {
  import opened Results
  import opened Geometry
  import opened Steering

  /** `spinNum`: the turn increment. */
  const SpinNum: int := 10
  /** `straightNum`: the forward increment. */
  const StraightNum: int := 50
  /** `numCycles`: the number of tracking cycles. */
  const NumCycles: nat := 400
  /** `vel`: the speed of every motion command. */
  const Vel: int := 250

  /** Python's floor division `a // b`: the quotient rounded toward minus infinity. */
  function FloorDiv(a: int, b: int): (q: int)
    requires b != 0
    ensures b > 0 ==> q * b <= a < q * b + b
    ensures b < 0 ==> q * b + b < a <= q * b
  {
    if b > 0 then a / b else (-a) / (-b)
  }

  /** `spinNum // 3`, the positive (counter-clockwise) turn. */
  const CcwSpin: int := FloorDiv(SpinNum, 3)
  /** `-spinNum // 3`, which Python reads as `(-spinNum) // 3`: the clockwise turn. */
  const CwSpin: int := FloorDiv(-SpinNum, 3)

  /** The two turn directions do not have the same size: floor division rounds
      10/3 down to 3 but -10/3 down to -4. */
  lemma SpinAsymmetry()
    ensures CcwSpin == 3 && CwSpin == -4
    ensures CcwSpin + CwSpin == -1
  {
  }

  /** The two motion primitives of the base. */
  datatype Command = Spin(angle: int, velocity: int) | MoveStraight(distance: int, velocity: int)

  /** Every command the program can issue: a turn by one of the two increments or a
      forward move by the forward increment, all at the same speed. */
  ghost predicate Issuable(c: Command) {
    match c
    case Spin(angle, v) => (angle == CcwSpin || angle == CwSpin) && v == Vel
    case MoveStraight(d, v) => d == StraightNum && v == Vel
  }

  ghost predicate AllIssuable(cmds: seq<Command>) {
    forall i :: 0 <= i < |cmds| ==> Issuable(cmds[i])
  }

  /** Number of forward moves in a trace. */
  function Moves(cmds: seq<Command>): nat {
    if |cmds| == 0 then 0
    else (if cmds[0].MoveStraight? then 1 else 0) + Moves(cmds[1..])
  }

  lemma {:induction false} MovesAppend(a: seq<Command>, b: seq<Command>)
    ensures Moves(a + b) == Moves(a) + Moves(b)
  {
    if |a| == 0 {
      assert a + b == b;
    } else {
      assert (a + b)[1..] == a[1..] + b;
      MovesAppend(a[1..], b);
    }
  }

  /** The commands of one tracking cycle for a decision (lines 103-123). A lost
      object turns toward the remembered side, CCW when remembered so and CW
      otherwise (an unknown bearing included); a seen object is turned toward
      when off-centre and then approached. */
  function Act(d: Decision): (cmds: seq<Command>)
    ensures 1 <= |cmds| <= 2
    ensures d.answer == Lost ==> |cmds| == 1
    ensures AllIssuable(cmds)
    ensures Moves(cmds) == (if d.answer == Lost then 0 else 1)
    ensures cmds[|cmds| - 1].MoveStraight? <==> d.answer != Lost
    ensures cmds[0].Spin? <==> d.answer != Centered
    ensures cmds[0].Spin? ==>
      (cmds[0].angle > 0 <==> d.answer == Left || (d.answer == Lost && d.bearing == CCW))
  {
    match d.answer
    case Lost =>
      if d.bearing == CCW then [Spin(CcwSpin, Vel)] else [Spin(CwSpin, Vel)]
    case Left => Turn(CcwSpin)
    case Centered => [MoveStraight(StraightNum, Vel)]
    case Right => Turn(CwSpin)
  }

  /** A turn by `angle` followed by a forward move. */
  function Turn(angle: int): (cmds: seq<Command>)
    ensures Moves(cmds) == 1
  {
    var cmds := [Spin(angle, Vel), MoveStraight(StraightNum, Vel)];
    assert cmds[1..] == [MoveStraight(StraightNum, Vel)];
    assert cmds[1..][1..] == [];
    assert Moves(cmds[1..]) == 1;
    cmds
  }

  /** How a phase of the program stopped: it ran to the end, `leftOrRight` raised,
      or the stream of samples ran out before the program stopped asking. */
  datatype Halt = Completed | Crashed(fault: Fault) | Starved

  /** What a phase did: the commands sent to the base in order, the bearing it
      ended with, and how many samples it took from the stream. */
  datatype Outcome = Outcome(commands: seq<Command>, bearing: Bearing, fetched: nat, halt: Halt)

  /** The search loop of lines 90-95: while no bearing is known, spin by
      `spinNum // 3`, take a sample, and decide with the bearing seeded to CW.
      When the stream runs dry the last spin has already been sent. */
  function SearchLoop(samples: seq<seq<Box>>, midpoint: real, bearing: Bearing): (o: Outcome)
    ensures bearing != Unknown ==> o == Outcome([], bearing, 0, Completed)
    ensures o.fetched <= |samples|
    ensures |o.commands| == o.fetched + (if o.halt == Starved then 1 else 0)
    ensures forall i :: 0 <= i < |o.commands| ==> o.commands[i] == Spin(CcwSpin, Vel)
    ensures o.halt == Completed ==> o.bearing != Unknown
    ensures o.halt == Starved ==> o.fetched == |samples| && bearing == Unknown
    ensures o.halt.Crashed? ==> 0 < o.fetched && AllDegenerate(samples[o.fetched - 1])
    ensures bearing == Unknown && o.halt == Completed ==>
      0 < |samples| && o.bearing == Remember(Side(samples[0], midpoint), CW)
    decreases |samples|
  {
    if bearing != Unknown then
      Outcome([], bearing, 0, Completed)
    else
      // The spin of line 92 is sent before the samples are asked for.
      var spin := Spin(CcwSpin, Vel);
      if |samples| == 0 then
        Outcome([spin], bearing, 0, Starved)
      else
      match LeftOrRight(samples[0], midpoint, CW)
      case Failure(e) => Outcome([spin], bearing, 1, Crashed(e))
      case Success(d) =>
        var rest := SearchLoop(samples[1..], midpoint, d.bearing);
        Outcome([spin] + rest.commands, rest.bearing, 1 + rest.fetched, rest.halt)
  }

  /** The search loop always stops after one pass: seeding `leftOrRight` with CW
      guarantees a known bearing unless it raises. */
  lemma SearchRunsOnce(samples: seq<seq<Box>>, midpoint: real)
    requires |samples| > 0
    ensures var o := SearchLoop(samples, midpoint, Unknown);
      && o.fetched == 1
      && o.commands == [Spin(CcwSpin, Vel)]
      && o.halt != Starved
      && (o.halt.Crashed? <==> |samples[0]| > 0 && AllDegenerate(samples[0]))
  {
    var r := LeftOrRight(samples[0], midpoint, CW);
    if r.Success? {
      assert r.value.bearing != Unknown;
    }
  }

  /** The tracking cycles of lines 98-123, one per sample: decide from the sample
      and the carried bearing, issue the commands for the decision, and carry the
      new bearing to the next cycle. */
  function Track(samples: seq<seq<Box>>, midpoint: real, bearing: Bearing): (o: Outcome)
    ensures o.halt != Starved
    ensures o.fetched <= |samples|
    ensures o.halt == Completed ==> o.fetched == |samples|
    ensures bearing != Unknown ==> o.bearing != Unknown
    decreases |samples|
  {
    if |samples| == 0 then
      Outcome([], bearing, 0, Completed)
    else
      match LeftOrRight(samples[0], midpoint, bearing)
      case Failure(e) => Outcome([], bearing, 1, Crashed(e))
      case Success(d) =>
        var rest := Track(samples[1..], midpoint, d.bearing);
        Outcome(Act(d) + rest.commands, rest.bearing, 1 + rest.fetched, rest.halt)
  }

  /** Tracking stops early only on a sample that holds detections none of which
      has a positive area; that sample is the last one taken, and it is the first
      such sample of the stream. */
  lemma {:induction false} TrackCrash(samples: seq<seq<Box>>, midpoint: real, bearing: Bearing)
    ensures var o := Track(samples, midpoint, bearing);
      o.halt.Crashed? <==> exists i :: 0 <= i < |samples| && |samples[i]| > 0 && AllDegenerate(samples[i])
    ensures var o := Track(samples, midpoint, bearing);
      o.halt.Crashed? ==> 0 < o.fetched && |samples[o.fetched - 1]| > 0 && AllDegenerate(samples[o.fetched - 1])
    ensures var o := Track(samples, midpoint, bearing);
      o.halt.Crashed? ==> forall j :: 0 <= j < o.fetched - 1 ==> !(|samples[j]| > 0 && AllDegenerate(samples[j]))
  {
    if |samples| > 0 {
      var r := LeftOrRight(samples[0], midpoint, bearing);
      if r.Success? {
        TrackCrash(samples[1..], midpoint, r.value.bearing);
        var o := Track(samples, midpoint, bearing);
        var rest := Track(samples[1..], midpoint, r.value.bearing);
        if o.halt.Crashed? {
          assert samples[rest.fetched] == samples[1..][rest.fetched - 1];
          forall j | 1 <= j < o.fetched - 1
            ensures samples[j] == samples[1..][j - 1]
          {
          }
        }
        if i :| 0 <= i < |samples| && |samples[i]| > 0 && AllDegenerate(samples[i]) {
          assert i != 0;
          assert samples[1..][i - 1] == samples[i];
        }
      }
    }
  }

  /** Every completed cycle issues one or two commands, all of them issuable. */
  lemma {:induction false} TrackCommands(samples: seq<seq<Box>>, midpoint: real, bearing: Bearing)
    ensures var o := Track(samples, midpoint, bearing);
      var cycles := if o.halt == Completed then o.fetched else o.fetched - 1;
      && cycles <= |o.commands| <= 2 * cycles
      && AllIssuable(o.commands)
  {
    if |samples| > 0 {
      var r := LeftOrRight(samples[0], midpoint, bearing);
      if r.Success? {
        TrackCommands(samples[1..], midpoint, r.value.bearing);
        var rest := Track(samples[1..], midpoint, r.value.bearing);
        var cmds := Act(r.value) + rest.commands;
        assert forall i :: |Act(r.value)| <= i < |cmds| ==> cmds[i] == rest.commands[i - |Act(r.value)|];
      }
    }
  }

  /** One tracking cycle followed by the rest: the unfolding of Track on a
      stream whose first sample is decided without a fault. */
  lemma TrackStep(samples: seq<seq<Box>>, midpoint: real, bearing: Bearing)
    requires |samples| > 0
    requires LeftOrRight(samples[0], midpoint, bearing).Success?
    ensures var d := LeftOrRight(samples[0], midpoint, bearing).value;
      var rest := Track(samples[1..], midpoint, d.bearing);
      Track(samples, midpoint, bearing) == Outcome(Act(d) + rest.commands, rest.bearing, 1 + rest.fetched, rest.halt)
  {
  }

  /** Track on a stream written as a first sample and the rest. */
  lemma TrackCons(head: seq<Box>, tail: seq<seq<Box>>, midpoint: real, bearing: Bearing)
    requires LeftOrRight(head, midpoint, bearing).Success?
    ensures var d := LeftOrRight(head, midpoint, bearing).value;
      var rest := Track(tail, midpoint, d.bearing);
      Track([head] + tail, midpoint, bearing) == Outcome(Act(d) + rest.commands, rest.bearing, 1 + rest.fetched, rest.halt)
  {
    assert ([head] + tail)[0] == head;
    assert ([head] + tail)[1..] == tail;
  }

  /** TrackStep for a concatenation whose first part is not empty. */
  lemma TrackConcatStep(a: seq<seq<Box>>, b: seq<seq<Box>>, midpoint: real, bearing: Bearing)
    requires |a| > 0
    requires LeftOrRight(a[0], midpoint, bearing).Success?
    ensures var d := LeftOrRight(a[0], midpoint, bearing).value;
      var rest := Track(a[1..] + b, midpoint, d.bearing);
      Track(a + b, midpoint, bearing) == Outcome(Act(d) + rest.commands, rest.bearing, 1 + rest.fetched, rest.halt)
  {
    assert a + b == [a[0]] + (a[1..] + b);
    TrackCons(a[0], a[1..] + b, midpoint, bearing);
  }

  /** The outcome of tracking `a` and then `b` from where `a` left the bearing. */
  function TrackBoth(a: seq<seq<Box>>, b: seq<seq<Box>>, midpoint: real, bearing: Bearing): Outcome {
    var x := Track(a, midpoint, bearing);
    var y := Track(b, midpoint, x.bearing);
    Outcome(x.commands + y.commands, y.bearing, x.fetched + y.fetched, y.halt)
  }

  /** Tracking a stream is tracking its first part and then, from the bearing that
      part ends with, the rest: the bearing is the only state between cycles. */
  lemma {:induction false} TrackSplit(a: seq<seq<Box>>, b: seq<seq<Box>>, midpoint: real, bearing: Bearing)
    requires Track(a, midpoint, bearing).halt == Completed
    ensures Track(a + b, midpoint, bearing) == TrackBoth(a, b, midpoint, bearing)
  {
    if |a| == 0 {
      assert a + b == b;
      var y := Track(b, midpoint, bearing);
      assert [] + y.commands == y.commands;
    } else {
      var d := LeftOrRight(a[0], midpoint, bearing).value;
      TrackSplit(a[1..], b, midpoint, d.bearing);
      TrackSplitCons(a, b, midpoint, bearing);
    }
  }

  /** The inductive step of TrackSplit: the split law for `a[1..]` gives it for `a`. */
  lemma TrackSplitCons(a: seq<seq<Box>>, b: seq<seq<Box>>, midpoint: real, bearing: Bearing)
    requires |a| > 0
    requires LeftOrRight(a[0], midpoint, bearing).Success?
    requires var d := LeftOrRight(a[0], midpoint, bearing).value;
      Track(a[1..] + b, midpoint, d.bearing) == TrackBoth(a[1..], b, midpoint, d.bearing)
    ensures Track(a + b, midpoint, bearing) == TrackBoth(a, b, midpoint, bearing)
  {
    var d := LeftOrRight(a[0], midpoint, bearing).value;
    var x' := Track(a[1..], midpoint, d.bearing);
    var y := Track(b, midpoint, x'.bearing);
    TrackStep(a, midpoint, bearing);
    var x := Track(a, midpoint, bearing);
    assert x == Outcome(Act(d) + x'.commands, x'.bearing, 1 + x'.fetched, x'.halt);
    assert TrackBoth(a, b, midpoint, bearing)
      == Outcome(x.commands + y.commands, y.bearing, x.fetched + y.fetched, y.halt);
    TrackConcatStep(a, b, midpoint, bearing);
    var rest := Track(a[1..] + b, midpoint, d.bearing);
    assert rest == Outcome(x'.commands + y.commands, y.bearing, x'.fetched + y.fetched, y.halt);
    assert Track(a + b, midpoint, bearing) == Outcome(Act(d) + rest.commands, rest.bearing, 1 + rest.fetched, rest.halt);
    assert Act(d) + (x'.commands + y.commands) == (Act(d) + x'.commands) + y.commands;
  }

  /** Reference for the bearing a run of cycles remembers: the side of the last
      sample that showed the object left or right of the dead-zone, or `initial`
      when no sample did. */
  function LastSide(samples: seq<seq<Box>>, midpoint: real, initial: Bearing): Bearing
    decreases |samples|
  {
    if |samples| == 0 then initial
    else
      match Side(samples[|samples| - 1], midpoint)
      case Left => CCW
      case Right => CW
      case _ => LastSide(samples[..|samples| - 1], midpoint, initial)
  }

  /** Reference for the commands a run of cycles sends: for each sample in turn,
      the commands for the side it shows, acted on with the bearing remembered
      once that sample has been seen. */
  function Expected(samples: seq<seq<Box>>, midpoint: real, initial: Bearing): seq<Command>
    decreases |samples|
  {
    if |samples| == 0 then []
    else
      var init := samples[..|samples| - 1];
      var a := Side(samples[|samples| - 1], midpoint);
      Expected(init, midpoint, initial) + Act(Decision(a, Remember(a, LastSide(init, midpoint, initial))))
  }

  /** Prepending a sample to a stream only changes the bearing the rest starts from. */
  lemma {:induction false} LastSideCons(x: seq<Box>, samples: seq<seq<Box>>, midpoint: real, initial: Bearing)
    ensures LastSide([x] + samples, midpoint, initial) == LastSide(samples, midpoint, LastSide([x], midpoint, initial))
    decreases |samples|
  {
    var xs := [x] + samples;
    if |samples| == 0 {
      assert xs == [x];
    } else {
      var n := |samples| - 1;
      assert xs[|xs| - 1] == samples[n];
      assert xs[..|xs| - 1] == [x] + samples[..n];
      LastSideCons(x, samples[..n], midpoint, initial);
    }
  }

  /** A stream whose tracking completes has every prefix complete as well. */
  lemma TrackPrefixCompletes(a: seq<seq<Box>>, b: seq<seq<Box>>, midpoint: real, bearing: Bearing)
    requires Track(a + b, midpoint, bearing).halt == Completed
    ensures Track(a, midpoint, bearing).halt == Completed
  {
    TrackCrash(a + b, midpoint, bearing);
    TrackCrash(a, midpoint, bearing);
    forall i | 0 <= i < |a|
      ensures (a + b)[i] == a[i]
    {
    }
  }

  /** A single completed cycle remembers the side its sample showed, if any. */
  lemma TrackLast(x: seq<Box>, midpoint: real, bearing: Bearing)
    requires Track([x], midpoint, bearing).halt == Completed
    ensures Track([x], midpoint, bearing).bearing == Remember(Side(x, midpoint), bearing)
    ensures var a := Side(x, midpoint);
      Track([x], midpoint, bearing).commands == Act(Decision(a, Remember(a, bearing)))
  {
    AnswerIgnoresBearing(x, midpoint, bearing);
    assert [x][1..] == [];
  }

  /** A completed phase that ends on sample `x` remembers what the phase before
      `x` remembered, updated by the side `x` showed. */
  lemma TrackSnoc(init: seq<seq<Box>>, x: seq<Box>, midpoint: real, bearing: Bearing)
    requires Track(init + [x], midpoint, bearing).halt == Completed
    ensures Track(init, midpoint, bearing).halt == Completed
    ensures Track(init + [x], midpoint, bearing).bearing == Remember(Side(x, midpoint), Track(init, midpoint, bearing).bearing)
    ensures var a := Side(x, midpoint);
      var before := Track(init, midpoint, bearing);
      Track(init + [x], midpoint, bearing).commands == before.commands + Act(Decision(a, Remember(a, before.bearing)))
  {
    TrackPrefixCompletes(init, [x], midpoint, bearing);
    TrackSplit(init, [x], midpoint, bearing);
    TrackLast(x, midpoint, Track(init, midpoint, bearing).bearing);
  }

  /** The reference memory, one sample at a time from the front: the last sample
      updates what the samples before it left. */
  lemma LastSideSnoc(init: seq<seq<Box>>, x: seq<Box>, midpoint: real, initial: Bearing)
    ensures LastSide(init + [x], midpoint, initial) == Remember(Side(x, midpoint), LastSide(init, midpoint, initial))
  {
    var xs := init + [x];
    assert xs[|xs| - 1] == x;
    assert xs[..|xs| - 1] == init;
  }

  /** The reference trace, one sample at a time from the front. */
  lemma ExpectedSnoc(init: seq<seq<Box>>, x: seq<Box>, midpoint: real, initial: Bearing)
    ensures var a := Side(x, midpoint);
      Expected(init + [x], midpoint, initial)
        == Expected(init, midpoint, initial) + Act(Decision(a, Remember(a, LastSide(init, midpoint, initial))))
  {
    var xs := init + [x];
    assert xs[|xs| - 1] == x;
    assert xs[..|xs| - 1] == init;
  }

  /** The bearing a completed tracking phase ends with is the side of the last
      sample that showed the object left or right, or the bearing it started from
      when none did: a centred or empty sample leaves the memory alone. */
  lemma {:induction false} TrackBearing(samples: seq<seq<Box>>, midpoint: real, bearing: Bearing)
    ensures var o := Track(samples, midpoint, bearing);
      o.halt == Completed ==> o.bearing == LastSide(samples, midpoint, bearing)
    decreases |samples|
  {
    if |samples| > 0 && Track(samples, midpoint, bearing).halt == Completed {
      var n := |samples| - 1;
      var init := samples[..n];
      assert samples == init + [samples[n]];
      TrackSnoc(init, samples[n], midpoint, bearing);
      TrackBearing(init, midpoint, bearing);
      LastSideSnoc(init, samples[n], midpoint, bearing);
    }
  }

  /** A completed tracking phase sends exactly the reference trace: every cycle
      acts on its own sample's side with the bearing carried into it, so a lost
      object turns toward the side where it was last seen. */
  lemma {:induction false} TrackTrace(samples: seq<seq<Box>>, midpoint: real, bearing: Bearing)
    ensures var o := Track(samples, midpoint, bearing);
      o.halt == Completed ==> o.commands == Expected(samples, midpoint, bearing)
    decreases |samples|
  {
    if |samples| > 0 && Track(samples, midpoint, bearing).halt == Completed {
      var n := |samples| - 1;
      var init := samples[..n];
      assert samples == init + [samples[n]];
      TrackSnoc(init, samples[n], midpoint, bearing);
      TrackTrace(init, midpoint, bearing);
      TrackBearing(init, midpoint, bearing);
      ExpectedSnoc(init, samples[n], midpoint, bearing);
    }
  }

  /** Number of samples in which at least one object was detected. */
  function Sightings(samples: seq<seq<Box>>): nat {
    if |samples| == 0 then 0
    else (if |samples[0]| > 0 then 1 else 0) + Sightings(samples[1..])
  }

  /** A completed tracking phase moves forward exactly once per sample that held a
      detection, and never on a sample that held none. */
  lemma {:induction false} MovesPerSighting(samples: seq<seq<Box>>, midpoint: real, bearing: Bearing)
    requires Track(samples, midpoint, bearing).halt == Completed
    ensures Moves(Track(samples, midpoint, bearing).commands) == Sightings(samples)
  {
    if |samples| > 0 {
      var d := LeftOrRight(samples[0], midpoint, bearing).value;
      var rest := Track(samples[1..], midpoint, d.bearing);
      MovesPerSighting(samples[1..], midpoint, d.bearing);
      MovesAppend(Act(d), rest.commands);
    }
  }

  /** The midpoint of lines 95 and 101, `frame.size[0] / 2`, fixed once from the
      width of the first frame. */
  function Midpoint(frameWidth: nat): real {
    frameWidth as real / 2.0
  }

  /** The smaller of two naturals. */
  function Min(a: nat, b: nat): nat {
    if a <= b then a else b
  }

  /** `main` after the connection is made: the search loop from an unknown bearing,
      then `numCycles` tracking cycles on the following samples. */
  function Run(frameWidth: nat, samples: seq<seq<Box>>): (o: Outcome)
    ensures o.fetched <= |samples|
    ensures o.halt == Completed ==> o.bearing != Unknown
    ensures o.halt == Completed ==> |samples| >= 1 + NumCycles && o.fetched == 1 + NumCycles
  {
    var midpoint := Midpoint(frameWidth);
    var s := SearchLoop(samples, midpoint, Unknown);
    if s.halt != Completed then
      s
    else
      var rest := samples[s.fetched..];
      var t := Track(rest[..Min(NumCycles, |rest|)], midpoint, s.bearing);
      var halt := if t.halt == Completed && |rest| < NumCycles then Starved else t.halt;
      Outcome(s.commands + t.commands, t.bearing, s.fetched + t.fetched, halt)
  }

  /** With a sample for every request, the program takes exactly one sample to
      search and one per cycle, never runs dry, and, unless `leftOrRight` raises,
      issues the search spin and then one or two commands per cycle, at least
      one of which is a forward move whenever the object was in view. */
  lemma RunCompletes(frameWidth: nat, samples: seq<seq<Box>>)
    requires |samples| >= 1 + NumCycles
    ensures var o := Run(frameWidth, samples);
      && o.halt != Starved
      && (o.halt == Completed ==>
            && o.fetched == 1 + NumCycles
            && o.commands[0] == Spin(CcwSpin, Vel)
            && 1 + NumCycles <= |o.commands| <= 1 + 2 * NumCycles
            && o.bearing != Unknown
            && Moves(o.commands) == Sightings(samples[1..1 + NumCycles]))
    ensures var o := Run(frameWidth, samples);
      o.halt == Completed <==> forall i :: 0 <= i <= NumCycles ==> !(|samples[i]| > 0 && AllDegenerate(samples[i]))
    ensures var o := Run(frameWidth, samples);
      o.halt == Completed ==> o.bearing == LastSide(samples[..1 + NumCycles], Midpoint(frameWidth), CW)
    ensures var o := Run(frameWidth, samples);
      var midpoint := Midpoint(frameWidth);
      o.halt == Completed ==>
        o.commands == [Spin(CcwSpin, Vel)] + Expected(samples[1..1 + NumCycles], midpoint, Remember(Side(samples[0], midpoint), CW))
  {
    RunHalt(frameWidth, samples);
    RunBearing(frameWidth, samples);
    RunTrace(frameWidth, samples);
    var midpoint := Midpoint(frameWidth);
    SearchRunsOnce(samples, midpoint);
    var s := SearchLoop(samples, midpoint, Unknown);
    if s.halt == Completed {
      var rest := samples[1..];
      var tracked := rest[..NumCycles];
      assert tracked == samples[1..1 + NumCycles];
      var t := Track(tracked, midpoint, s.bearing);
      TrackCommands(tracked, midpoint, s.bearing);
      if t.halt == Completed {
        MovesPerSighting(tracked, midpoint, s.bearing);
        MovesAppend(s.commands, t.commands);
      }
    }
  }

  /** With enough samples, the run completes exactly when none of the 1 + 400
      samples it takes holds detections that all have a non-positive area. */
  lemma RunHalt(frameWidth: nat, samples: seq<seq<Box>>)
    requires |samples| >= 1 + NumCycles
    ensures Run(frameWidth, samples).halt == Completed <==>
      forall i :: 0 <= i <= NumCycles ==> !(|samples[i]| > 0 && AllDegenerate(samples[i]))
  {
    var midpoint := Midpoint(frameWidth);
    SearchRunsOnce(samples, midpoint);
    var s := SearchLoop(samples, midpoint, Unknown);
    if s.halt == Completed {
      var tracked := samples[1..][..NumCycles];
      TrackCrash(tracked, midpoint, s.bearing);
      forall i | 1 <= i <= NumCycles
        ensures samples[i] == tracked[i - 1]
      {
      }
    }
  }

  /** With enough samples, a completed run ends remembering the side of the last
      of its 1 + 400 samples that showed the object left or right, and CW, the
      seed of the search, when none did. */
  lemma RunBearing(frameWidth: nat, samples: seq<seq<Box>>)
    requires |samples| >= 1 + NumCycles
    ensures var o := Run(frameWidth, samples);
      o.halt == Completed ==> o.bearing == LastSide(samples[..1 + NumCycles], Midpoint(frameWidth), CW)
  {
    var midpoint := Midpoint(frameWidth);
    SearchRunsOnce(samples, midpoint);
    var s := SearchLoop(samples, midpoint, Unknown);
    if s.halt == Completed {
      var tracked := samples[1..][..NumCycles];
      TrackBearing(tracked, midpoint, s.bearing);
      assert [samples[0]][..0] == [];
      assert s.bearing == LastSide([samples[0]], midpoint, CW);
      LastSideCons(samples[0], tracked, midpoint, CW);
      assert samples[..1 + NumCycles] == [samples[0]] + tracked;
    }
  }

  /** With enough samples, a completed run sends the search spin and then the
      reference trace of its 400 cycles, starting from the bearing the search
      found: CCW if the first sample showed the object left, CW otherwise. */
  lemma RunTrace(frameWidth: nat, samples: seq<seq<Box>>)
    requires |samples| >= 1 + NumCycles
    ensures var o := Run(frameWidth, samples);
      var midpoint := Midpoint(frameWidth);
      o.halt == Completed ==>
        o.commands == [Spin(CcwSpin, Vel)] + Expected(samples[1..1 + NumCycles], midpoint, Remember(Side(samples[0], midpoint), CW))
  {
    var midpoint := Midpoint(frameWidth);
    SearchRunsOnce(samples, midpoint);
    var s := SearchLoop(samples, midpoint, Unknown);
    if s.halt == Completed {
      var tracked := samples[1..][..NumCycles];
      assert tracked == samples[1..1 + NumCycles];
      TrackTrace(tracked, midpoint, s.bearing);
    }
  }

  /** Whatever the detections, and however the run stops, every command sent to
      the base is one of the five the program knows: a turn of 3 or -4 or a
      forward move of 50, all at speed 250. */
  lemma RunIssuable(frameWidth: nat, samples: seq<seq<Box>>)
    ensures AllIssuable(Run(frameWidth, samples).commands)
  {
    var midpoint := Midpoint(frameWidth);
    var s := SearchLoop(samples, midpoint, Unknown);
    if s.halt == Completed {
      var rest := samples[s.fetched..];
      var tracked := rest[..Min(NumCycles, |rest|)];
      var t := Track(tracked, midpoint, s.bearing);
      TrackCommands(tracked, midpoint, s.bearing);
      AllIssuableAppend(s.commands, t.commands);
    }
  }

  /** Issuable traces stay issuable when one follows the other. */
  lemma AllIssuableAppend(a: seq<Command>, b: seq<Command>)
    requires AllIssuable(a) && AllIssuable(b)
    ensures AllIssuable(a + b)
  {
    assert forall i :: |a| <= i < |a + b| ==> (a + b)[i] == b[i - |a|];
  }
}

=== FILE: geometry.dfy ===
/**
  Bounding boxes and the "largest detection" scan of `leftOrRight`
  (main.py, lines 41-42 and 53-57).
 */
module Geometry {
  import opened Results

  /** One detection as the vision service reports it, in integer pixel coordinates.
      Nothing forces xMax >= xMin or yMax >= yMin: such boxes are accepted as they are. */
  datatype Box = Box(xMin: int, xMax: int, yMin: int, yMax: int)

  /** The area main.py computes; non-positive for empty or inverted boxes. */
  function Area(b: Box): int {
    (b.xMax - b.xMin) * (b.yMax - b.yMin)
  }

  /** The horizontal reference point main.py uses, `x_min + x_max / 2`
      with Python's true division. It is NOT the centre of the box. */
  function CenterX(b: Box): real {
    b.xMin as real + b.xMax as real / 2.0
  }

  /** The geometric horizontal centre of a box, for comparison with CenterX. */
  function TrueCenter(b: Box): real {
    (b.xMin + b.xMax) as real / 2.0
  }

  /** The literal formula overshoots the true centre by half of xMin, so the two
      agree exactly when the box starts at the left edge of the frame. */
  lemma CenterXOffset(b: Box)
    ensures CenterX(b) == TrueCenter(b) + b.xMin as real / 2.0
    ensures CenterX(b) == TrueCenter(b) <==> b.xMin == 0
  {
  }

  /** No box of the list has a positive area. */
  ghost predicate AllDegenerate(boxes: seq<Box>) {
    forall j :: 0 <= j < |boxes| ==> Area(boxes[j]) <= 0
  }

  /** `k` is the index the scan must select: a positive-area box at least as large
      as every box and strictly larger than every box before it. */
  ghost predicate IsFirstLargest(boxes: seq<Box>, k: int) {
    && 0 <= k < |boxes|
    && Area(boxes[k]) > 0
    && (forall j :: 0 <= j < |boxes| ==> Area(boxes[j]) <= Area(boxes[k]))
    && (forall j :: 0 <= j < k ==> Area(boxes[j]) < Area(boxes[k]))
  }

  /** What the loop variables `largest_area` and `largest` say about the boxes
      already visited, `boxes[..i]`. `None` stands for the placeholder dict. */
  ghost predicate ScanState(boxes: seq<Box>, i: nat, largestArea: int, largest: Option<nat>)
    requires i <= |boxes|
  {
    match largest
    case None =>
      && largestArea == 0
      && (forall j :: 0 <= j < i ==> Area(boxes[j]) <= 0)
    case Some(k) =>
      && k < i
      && largestArea == Area(boxes[k])
      && largestArea > 0
      && (forall j :: 0 <= j < i ==> Area(boxes[j]) <= largestArea)
      && (forall j :: 0 <= j < k ==> Area(boxes[j]) < largestArea)
  }

  /** The loop `for d in detections` from box `i` on: a box replaces the current
      choice only when its area is strictly greater. */
  function ScanLargest(boxes: seq<Box>, i: nat, largestArea: int, largest: Option<nat>): (r: Option<nat>)
    requires i <= |boxes|
    requires ScanState(boxes, i, largestArea, largest)
    ensures r == None <==> AllDegenerate(boxes)
    ensures r.Some? ==> IsFirstLargest(boxes, r.value)
    decreases |boxes| - i
  {
    if i == |boxes| then
      largest
    else if Area(boxes[i]) > largestArea then
      ScanLargest(boxes, i + 1, Area(boxes[i]), Some(i))
    else
      ScanLargest(boxes, i + 1, largestArea, largest)
  }

  /** At most one index satisfies IsFirstLargest. */
  lemma FirstLargestUnique(boxes: seq<Box>, k1: int, k2: int)
    requires IsFirstLargest(boxes, k1) && IsFirstLargest(boxes, k2)
    ensures k1 == k2
  {
  }

  /** The selection of lines 41-42 and 53-57, started from `largest_area = 0` and the
      placeholder: None when no box has a positive area, otherwise the first box
      of maximal positive area. */
  function Largest(boxes: seq<Box>): (r: Option<nat>)
    ensures r == None <==> AllDegenerate(boxes)
    ensures r.Some? ==> IsFirstLargest(boxes, r.value)
  {
    ScanLargest(boxes, 0, 0, None)
  }

  /** The selection rule pins the choice down: any index meeting it is the one
      the scan returns. */
  lemma LargestIsFirstLargest(boxes: seq<Box>, k: int)
    requires IsFirstLargest(boxes, k)
    ensures Largest(boxes) == Some(k)
  {
    FirstLargestUnique(boxes, Largest(boxes).value, k);
  }
}

=== FILE: results.dfy ===
/** Small failure-carrying wrappers used throughout the model. */
module Results {

  /** A value that may be absent; `None` plays the role of Python's `None`. */
  datatype Option<+T> = None | Some(value: T)

  /** The outcome of an operation that can raise: `Failure` carries the error. */
  datatype Result<+T, +E> = Success(value: T) | Failure(error: E)
}

=== FILE: scenarios.dfy ===
/**
  Concrete situations worked through on the model: the dead-zone edges, a lost
  object, the bearing carried over a centred sighting, ties between boxes, the
  effect of the `x_min + x_max / 2` formula, and the crash on degenerate boxes.
  All use a 600-pixel-wide frame, so the midpoint is 300 and the dead-zone is
  [250, 350].
 */
module Scenarios {
  import opened Results
  import opened Geometry
  import opened Steering
  import opened Control

  /** A box with CenterX(AtHalf(c)) == c / 2; its area is positive when c > 0. */
  function AtHalf(c: nat): Box {
    Box(0, c, 0, 1)
  }

  /** Strictly outside the band turns, the edges themselves count as centred. */
  lemma DeadZoneEdges()
    ensures Midpoint(600) == 300.0 && Lower(300.0) == 250.0 && Upper(300.0) == 350.0
    ensures LeftOrRight([AtHalf(498)], 300.0, Unknown) == Success(Decision(Left, CCW))
    ensures LeftOrRight([AtHalf(500)], 300.0, Unknown) == Success(Decision(Centered, Unknown))
    ensures LeftOrRight([AtHalf(600)], 300.0, CW) == Success(Decision(Centered, CW))
    ensures LeftOrRight([AtHalf(700)], 300.0, CCW) == Success(Decision(Centered, CCW))
    ensures LeftOrRight([AtHalf(702)], 300.0, CCW) == Success(Decision(Right, CW))
  {
  }

  /** An empty sample hands back the remembered bearing, known or not. */
  lemma LostKeepsBearing()
    ensures LeftOrRight([], 300.0, CW) == Success(Decision(Lost, CW))
    ensures LeftOrRight([], 300.0, Unknown) == Success(Decision(Lost, Unknown))
  {
  }

  /** A left sighting followed by a centred one leaves CCW remembered; the cycles
      turn left and advance, then advance. */
  lemma BearingSurvivesCentered()
    ensures Track([[AtHalf(100)], [AtHalf(600)]], 300.0, Unknown)
      == Outcome([Spin(3, 250), MoveStraight(50, 250), MoveStraight(50, 250)], CCW, 2, Completed)
  {
    SpinAsymmetry();
  }

  /** A left sighting followed by an empty sample: the lost object is searched
      for by turning counter-clockwise, toward where it was last seen. */
  lemma LostAfterLeftSpinsCcw()
    ensures Track([[AtHalf(100)], []], 300.0, Unknown)
      == Outcome([Spin(3, 250), MoveStraight(50, 250), Spin(3, 250)], CCW, 2, Completed)
  {
    SpinAsymmetry();
  }

  /** Two boxes of area 400, (0, 20, 0, 20) and (100, 140, 0, 10): the first is
      kept, its CenterX is 10, and the robot turns counter-clockwise and advances. */
  lemma TieKeepsFirstBox()
    ensures var boxes := [Box(0, 20, 0, 20), Box(100, 140, 0, 10)];
      && Area(boxes[0]) == Area(boxes[1]) == 400
      && Largest(boxes) == Some(0)
      && LeftOrRight(boxes, 300.0, Unknown) == Success(Decision(Left, CCW))
      && Act(Decision(Left, CCW)) == [Spin(3, 250), MoveStraight(50, 250)]
  {
    var boxes := [Box(0, 20, 0, 20), Box(100, 140, 0, 10)];
    assert IsFirstLargest(boxes, 0);
    SpinAsymmetry();
  }

  /** A box spanning 280..320 is centred on the midpoint, yet its CenterX is
      280 + 160 = 440 and the decision is Right. */
  lemma CenteredBoxReadsRight()
    ensures TrueCenter(Box(280, 320, 0, 10)) == 300.0
    ensures LeftOrRight([Box(280, 320, 0, 10)], 300.0, CCW) == Success(Decision(Right, CW))
  {
  }

  /** Detections whose boxes all have zero or negative area raise, in the search
      loop as in tracking. */
  lemma DegenerateDetectionsCrash()
    ensures LeftOrRight([Box(5, 5, 0, 10), Box(10, 0, 0, 10)], 300.0, CW).Failure?
    ensures Run(600, [[Box(5, 5, 0, 10)]]) == Outcome([Spin(3, 250)], Unknown, 1, Crashed(PlaceholderHasNoCoordinates))
  {
    SpinAsymmetry();
  }
}

=== FILE: steering.dfy ===
/**
  The decision function `leftOrRight` (main.py, lines 28-66): pick the largest
  detection, classify it against a dead-zone around the frame midpoint, and
  update the remembered bearing.
 */
module Steering {
  import opened Results
  import opened Geometry

  /** The remembered spin direction `last_position`: "CW", "CCW" or None. */
  datatype Bearing = CW | CCW | Unknown

  /** Where the object is: the integer `answer` of main.py, which is -1 for
      Lost, 0 for Left, 1 for Centered and 2 for Right. */
  datatype Answer = Lost | Left | Centered | Right

  /** The pair `(answer, last_position)` that `leftOrRight` returns. */
  datatype Decision = Decision(answer: Answer, bearing: Bearing)

  /** The one way `leftOrRight` fails: when no box has a positive area, nothing
      replaces the placeholder dict of line 42, and reading `largest.x_min` on a
      dict raises an AttributeError. */
  datatype Fault = PlaceholderHasNoCoordinates

  /** Left edge of the dead-zone, `midpoint - midpoint / 6`. */
  function Lower(midpoint: real): real {
    midpoint - midpoint / 6.0
  }

  /** Right edge of the dead-zone, `midpoint + midpoint / 6`. */
  function Upper(midpoint: real): real {
    midpoint + midpoint / 6.0
  }

  /** Reference rule for the bearing memory: a left sighting remembers CCW, a right
      sighting remembers CW, anything else keeps what was remembered. */
  function Remember(answer: Answer, last: Bearing): Bearing {
    match answer
    case Left => CCW
    case Right => CW
    case _ => last
  }

  /** `leftOrRight(detections, midpoint, last_position)`. */
  function LeftOrRight(detections: seq<Box>, midpoint: real, last: Bearing): (r: Result<Decision, Fault>)
    ensures |detections| == 0 ==> r == Success(Decision(Lost, last))
    ensures r.Failure? <==> |detections| > 0 && AllDegenerate(detections)
    ensures r.Success? ==> (r.value.answer == Lost <==> |detections| == 0)
    ensures r.Success? ==> r.value.bearing == Remember(r.value.answer, last)
    ensures r.Success? && last != Unknown ==> r.value.bearing != Unknown
  {
    if |detections| == 0 then
      // Both branches of lines 46-51 hand back `last_position` unchanged.
      Success(Decision(Lost, last))
    else
      match Largest(detections)
      case None => Failure(PlaceholderHasNoCoordinates)
      case Some(k) =>
        var c := CenterX(detections[k]);
        if c < Lower(midpoint) then Success(Decision(Left, CCW))
        else if c > Upper(midpoint) then Success(Decision(Right, CW))
        else Success(Decision(Centered, last))
  }

  /** Where a detection list places the object, whatever bearing is remembered:
      the answer `leftOrRight` gives, or Lost when it raises. */
  function Side(detections: seq<Box>, midpoint: real): Answer {
    match LeftOrRight(detections, midpoint, Unknown)
    case Success(d) => d.answer
    case Failure(_) => Lost
  }

  /** The remembered bearing is only ever an output: the answer, and whether the
      call raises, do not depend on it. */
  lemma AnswerIgnoresBearing(detections: seq<Box>, midpoint: real, last: Bearing)
    ensures LeftOrRight(detections, midpoint, last).Success? == LeftOrRight(detections, midpoint, Unknown).Success?
    ensures LeftOrRight(detections, midpoint, last).Success? ==>
      LeftOrRight(detections, midpoint, last).value.answer == Side(detections, midpoint)
  {
  }

  /** The classification of a non-empty detection list is decided by the first box
      of maximal positive area alone: left of the dead-zone is Left, right of it is
      Right, inside it (edges included) is Centered. */
  lemma ClassifiesFirstLargest(detections: seq<Box>, midpoint: real, last: Bearing, k: int)
    requires IsFirstLargest(detections, k)
    requires midpoint >= 0.0
    ensures LeftOrRight(detections, midpoint, last).Success?
    ensures var d := LeftOrRight(detections, midpoint, last).value;
      && (d.answer == Left <==> CenterX(detections[k]) < Lower(midpoint))
      && (d.answer == Right <==> CenterX(detections[k]) > Upper(midpoint))
      && (d.answer == Centered <==> Lower(midpoint) <= CenterX(detections[k]) <= Upper(midpoint))
  {
    LargestIsFirstLargest(detections, k);
  }

  /** Boxes with a non-positive area never influence the decision: appending one
      to a list that already holds a positive-area box changes nothing. */
  lemma DegenerateBoxIgnored(detections: seq<Box>, extra: Box, midpoint: real, last: Bearing)
    requires !AllDegenerate(detections)
    requires Area(extra) <= 0
    ensures LeftOrRight(detections + [extra], midpoint, last) == LeftOrRight(detections, midpoint, last)
  {
    var k := Largest(detections).value;
    var all := detections + [extra];
    assert IsFirstLargest(all, k) by {
      assert forall j :: 0 <= j < |detections| ==> all[j] == detections[j];
    }
    LargestIsFirstLargest(all, k);
  }
}
